=== FILE: README.md ===
# Messages screen: search, chat resolution and session transitions

A Dafny model of the sequential logic inside the direct-messaging screen
`src/screens/MessagesScreen.tsx`:

- **User search** (`filteredUsers`): the loaded users, filtered by the
  search box text after lower-casing and trimming; a blank query returns the
  list unchanged; a user matches on display name, on handle, or on handle
  with one leading `@` removed from the query.
- **Chat resolution** (`findOrCreateChat`): a lookup of the chats table for
  the pair in either order, returning the first hit; otherwise one row
  `(userId1, userId2)`, in the caller's order, is inserted and returned;
  errors give no chat.
- **Message store** (`fetchMessages`, `sendMessage`): the rows of one chat,
  and a one-row insert.
- **Session transitions** (`handleSelectUser`, `handleSendMessage`,
  `handleBackToList`, and the effect that opens a pre-selected user, both on
  mount and when the parent later passes a different user):
  pure functions from the screen state `{selectedUser, currentChatId,
  messages}` and the two tables to new ones.

The database is abstracted as two sequences of rows in storage order
(`Screen.Backend`). Every answer the database gives — a failed query, an
insert that fails, an insert that writes but returns no row, the id it
assigns — is an explicit parameter (`Screen.SelectOracle`,
`Screen.SendOracle`, `Storage.InsertOutcome`), so every transition is
deterministic.

Modules: `Wrappers` (Option), `Seqs` (subsequence, filter, first index),
`Text` (trim, ASCII lower-case, includes), `UserSearch`, `Storage`
(single-row insert), `Chats`, `Messages`, `Screen`.

Behaviour a reader might expect but the code does not have:

- The chat row is inserted in caller order; the pair is not put into a fixed
  order first. Sequential calls still never create a second chat for a pair
  (`Chats.ResolvePreservesUniquePairs`), because an insert only happens after
  a lookup in both orders found nothing.
- Messages are inserted without a sender, and no body is rejected, empty or not.
- Messages are fetched with no ordering clause (see `Messages.FetchMessages`
  under "## Left out").
- A failed resolution changes nothing on screen (`Screen.SelectUser`). When
  the effect re-runs for a new pre-selected user, that user is selected before
  the resolution. If the resolution then fails, the new user is shown next to
  the previous chat id and messages, and the next message goes to the previous
  chat (`Screen.ChangedUserSendsToPreviousChat`).
- Going back to the list clears only the selected user (`Screen.BackToList`).

## Model

| member | source | states |
|---|---|---|
| `Text.Trim` | src/screens/MessagesScreen.tsx:163 | `trim` keeps the slice of the text between its leading and trailing whitespace, and every character removed is whitespace |
| `Text.TrimLowerCommute` | src/screens/MessagesScreen.tsx:163-167 | lower-casing then trimming equals trimming then lower-casing, so the normalised query is empty exactly when the trimmed box text is |
| `Text.TrimEmptyIff` | src/screens/MessagesScreen.tsx:163 | a query trims to empty exactly when every character is whitespace |
| `Text.ToLower` | src/screens/MessagesScreen.tsx:167 | `toLowerCase` keeps the length and folds each ASCII capital to its small letter, leaving other characters alone |
| `Text.ContainsIffOccurs` | src/screens/MessagesScreen.tsx:170 | `includes` holds exactly when the needle occurs at some position of the text |
| `Text.ContainsTail` | src/screens/MessagesScreen.tsx:172-175 | a text that includes a needle also includes the needle without its first character |
| `Seqs.Filter` | src/screens/MessagesScreen.tsx:168-177 | the result is an order-preserving subsequence that keeps every occurrence of each satisfying element and no other element |
| `Seqs.FirstIndex` | src/screens/MessagesScreen.tsx:115-116 | the index returned is the first position whose element satisfies the predicate, or the length when none does |
| `Seqs.FilterHead` | src/screens/MessagesScreen.tsx:115-116 | a query result is non-empty exactly when some row matches, and its first row is the first matching stored row |
| `UserSearch.StripAt` | src/screens/MessagesScreen.tsx:174 | a query starting with `@` loses exactly that character; any other query is kept |
| `UserSearch.MatchingUsers` | src/screens/MessagesScreen.tsx:168-177 | the filter callback keeps, in original order, every occurrence of each user the query matches and no other user |
| `UserSearch.FilteredUsers` | src/screens/MessagesScreen.tsx:162-178 | a blank query returns the user list unchanged; any other query is non-empty once lower-cased and trimmed, and selects the users it matches |
| `UserSearch.MatchesCharacterisation` | src/screens/MessagesScreen.tsx:169-176 | a user matches exactly when the name includes the query or the handle includes the query without its `@`; a user without a handle is matched by name alone |
| `UserSearch.LoneAtMatchesEveryHandle` | src/screens/MessagesScreen.tsx:172-176 | the query `@` matches every user that has a handle |
| `UserSearch.LoneAtQueryListsHandles` | src/screens/MessagesScreen.tsx:162-177 | searching `@` lists exactly the users with a handle or with an `@` in their name |
| `UserSearch.AtQueryNarrows` | src/screens/MessagesScreen.tsx:170-176 | a user found by `@t` is also found by `t` |
| `UserSearch.AtBobFindsHandleBob` | src/screens/MessagesScreen.tsx:167-176 | the searches `@bob` and `bob` both list a user whose handle is `Bob` |
| `Storage.InsertRow` | src/screens/MessagesScreen.tsx:119-127 | an insert adds at most the one row, at the end, adds nothing exactly when it fails, and hands back the inserted row exactly when it succeeds |
| `Chats.FindOrCreateChat` | src/screens/MessagesScreen.tsx:104-130 | a failed lookup yields no chat and no write; a hit yields the first stored chat of the pair in either order and no write; otherwise the row (new id, userId1, userId2) is inserted and returned, or no chat on a failed or empty insert |
| `Chats.ResolutionShape` | src/screens/MessagesScreen.tsx:115-129 | a call appends at most one row and keeps the existing ones; a returned chat is stored and joins the two users |
| `Chats.FirstChatIndexSymmetric` | src/screens/MessagesScreen.tsx:108 | the lookup finds the same first chat whichever order the pair is given in |
| `Chats.ResolveIsIdempotent` | src/screens/MessagesScreen.tsx:104-130 | after a call returns a chat, a later call with a successful lookup for the same pair, in either order, returns that chat and inserts nothing |
| `Chats.ResolvePreservesUniquePairs` | src/screens/MessagesScreen.tsx:115-129 | if no two stored chats join the same pair, the same holds after any call |
| `Messages.FetchMessages` | src/screens/MessagesScreen.tsx:133-145 | a failed fetch gives the empty list; otherwise exactly the stored rows of the chat, each with its multiplicity (in storage order; see "## Left out") |
| `Messages.SendMessage` | src/screens/MessagesScreen.tsx:148-159 | a successful insert appends and hands back the row (new id, chat id, body); a failed one writes nothing; one that returns no row writes it but hands back nothing |
| `Screen.InitialSession` | src/screens/MessagesScreen.tsx:22-24 | the screen starts with the pre-selected user, no chat id and no messages |
| `Screen.SelectUser` | src/screens/MessagesScreen.tsx:191-199 | with no chat resolved nothing on screen changes; otherwise the user is selected, the chat id is that of the chat `findOrCreateChat` returned (the first stored chat of the pair), and the messages are exactly that chat's stored rows, or none if the fetch fails; the chats table is the one `findOrCreateChat` leaves, the messages table is untouched |
| `Screen.SendMessageInView` | src/screens/MessagesScreen.tsx:201-208 | a missing or empty chat id is a no-op; otherwise the row (new id, chat id, body) is written unless the insert fails, and is appended to the shown messages only when it is handed back; user and chat id never change |
| `Screen.BackToList` | src/screens/MessagesScreen.tsx:180-185 | deselects the user and keeps the chat id and the shown messages |
| `Screen.OpenAsWritten` | src/screens/MessagesScreen.tsx:33-40 | on mount the pre-selected user stays selected; the chats table and the chat opened are those `findOrCreateChat` gives for the empty viewer id and that user; the messages table is untouched and the shown messages are exactly the opened chat's stored rows, or none when the fetch fails; a failed resolution leaves no chat and no messages |
| `Screen.Open` | src/screens/MessagesScreen.tsx:33-40 | on mount the pre-selected user stays selected; the chats table and the chat opened are those `findOrCreateChat` gives for the viewer and that user; the messages table is untouched and the shown messages are exactly the opened chat's stored rows, or none when the fetch fails; a failed resolution leaves no chat and no messages |
| `Screen.ChangeSelectedUser` | src/screens/MessagesScreen.tsx:33-40 | a later run of the effect selects the new user; with no chat resolved the previous chat id and messages stay; otherwise it ends as `handleSelectUser` does |
| `Screen.ChangedUserSendsToPreviousChat` | src/screens/MessagesScreen.tsx:33-40 | after a re-run whose lookup fails, the newly selected user's next message is written to the previously open chat |
| `Screen.OpenAsWrittenMissesViewer` | src/screens/MessagesScreen.tsx:33-40 | mounting with user `u1` for viewer `v1` creates the chat `("", "u1")` as written and `("v1", "u1")` as intended |
| `Screen.OpenCoherent` | src/screens/MessagesScreen.tsx:33-40 | mounting, with or without a pre-selected user, on any backend shows only stored messages of the open chat |
| `Screen.InitialCoherent` | src/screens/MessagesScreen.tsx:22-24 | the initial screen shows only messages of the open chat, all of them stored |
| `Screen.SelectUserCoherent` | src/screens/MessagesScreen.tsx:191-199 | selecting a user keeps every shown message in the open chat and a stored row, in storage order (see `Messages.FetchMessages` under "## Left out") |
| `Screen.ChangeSelectedUserCoherent` | src/screens/MessagesScreen.tsx:33-40 | a later run of the effect keeps every shown message in the open chat and a stored row |
| `Screen.SendCoherent` | src/screens/MessagesScreen.tsx:201-208 | sending keeps every shown message in the open chat and a stored row, in storage order (see `Messages.FetchMessages` under "## Left out"), whatever the database answers |
| `Screen.BackToListCoherent` | src/screens/MessagesScreen.tsx:180-185 | going back to the list keeps every shown message in the open chat and a stored row |
| `Screen.ReselectOpensSameChat` | src/screens/MessagesScreen.tsx:191-199 | once a selection opened a chat, selecting the same user again, or the other participant selecting the viewer, opens the same chat and writes no chat row |

## Findings

| source | as written | input that shows it | evidently intended | confidence | as-written member | corrected member |
|---|---|---|---|---|---|---|
| src/screens/MessagesScreen.tsx:33-40 | the mount effect calls `handleSelectUser` from the first render, whose closure still holds `currentUserId === ''` (line 20); the sign-in lookup has not finished | the screen mounts for viewer `v1` with pre-selected user `u1` and no chat stored: the lookup and the insert use the pair `("", "u1")` | resolve the pair `("v1", "u1")` | medium, not executed | `Screen.OpenAsWritten`, `Screen.OpenAsWrittenMissesViewer` | `Screen.Open` |

Depending on the database, the insert of a chat with an empty user id may be
rejected instead. The screen then shows the pre-selected user with no chat
id, and every send is a no-op (`Screen.SendMessageInView`).

## Left out

- `loadUsers` (lines 43-101): sign-in lookup and profile query are I/O; the
  random distance and the clock-based age are nondeterministic. The viewer id
  and the user list are parameters instead.
- The Supabase client calls are replaced by the sequences of rows and the
  oracle parameters. The exact filter string on line 108 is not modelled;
  only its evident intent is: a match in either order.
- `Chats.FindOrCreateChat`: takes the rows the chat lookup returns in storage
  order, so "the first stored chat" is a modelling choice. The query sets no
  order, so the database may return them in another order.
- Concurrency: two sessions resolving the same pair at once can each miss the
  other's row and insert twice. Overlap within one session is not modelled
  either: a send while `handleSelectUser` awaits its fetch (line 195, after
  line 194 has set the new chat id) is overwritten on screen by that fetch, and
  two quick selections can finish out of order. Every handler call is modelled
  as completing before the next begins.
- `Messages.FetchMessages`: returns the chat's rows in storage order. The
  query on line 137 sets no order, so the database may return them in any
  order. The "in storage order" half of `Screen.ViewPersisted`, and so of the
  coherence lemmas `Screen.SelectUserCoherent` and `Screen.SendCoherent`, rests
  on this choice; the per-chat membership and multiplicity do not.
- `Screen.Open`: models the first run of the effect on lines 33-40, at mount.
  Later runs, when the parent passes a new user, are `Screen.ChangeSelectedUser`;
  their viewer id is a parameter, because the closure then holds whatever
  `currentUserId` the render saw.
- `Text.ToLower`: folds ASCII letters only, not the full Unicode case mapping
  of `toLowerCase`.
- `Messages.SendMessage`: the source reads `newMessage[0]` (line 158) from an
  insert without `.select()`. If the client answers `data: []`, this yields
  `undefined`, which line 204 treats as no message. If it answers
  `data: null`, line 158 throws and `handleSendMessage` stops there. Both end
  the same way (row written, nothing shown), which is the `NotReturned`
  outcome. The sign-in call on line 45 is that of version 2 of the Supabase
  JavaScript client, which is documented to answer `data: null` to an insert
  without `.select()`; if so, every successful send is `NotReturned` and the
  `Inserted` outcome never happens for sends. The client is not part of this
  model, so `Inserted` stays a possible oracle answer.
- The `onClearSelectedUser` callback (lines 182-184) belongs to the parent
  screen. `clearSearch`, `isMobile`, `isLoading`, the `useMemo` cache and the
  JSX rendering are presentation. This includes the undefined `allMessages` and
  `selectedUserMessages` references.
- Logging through `console.error` is not modelled.

=== FILE: chats.dfy ===
/**
 `findOrCreateChat`: look a chat up by its two participants, in either order,
 and insert one when none exists. The chats table is a sequence of rows in
 storage order; the database's errors and the id it assigns are parameters.
 */
module Chats {
  import opened Wrappers
  import opened Seqs
  import opened Storage

  /** A row of the chats table. */
  datatype Chat = Chat(id: string, user1: string, user2: string)

  /** The chat is between `a` and `b`, stored in either order. */
  predicate Joins(c: Chat, a: string, b: string)
  {
    (c.user1 == a && c.user2 == b) || (c.user1 == b && c.user2 == a)
  }

  /** The lookup's result rows, in storage order. */
  function MatchingChats(chats: seq<Chat>, a: string, b: string): seq<Chat>
  {
    Filter(chats, c => Joins(c, a, b))
  }

  /** The position of the first stored chat between `a` and `b`, or `|chats|`. */
  function FirstChatIndex(chats: seq<Chat>, a: string, b: string): nat
  {
    FirstIndex(chats, c => Joins(c, a, b))
  }

  /** The result of a resolution: the chat handed back, if any, and the table after. */
  datatype Resolution = Resolution(chat: Option<Chat>, chats: seq<Chat>)

  /**
   Resolves the pair (`userId1`, `userId2`). A failed lookup yields no chat and
   writes nothing. A lookup that finds chats returns the first of them and
   writes nothing. Otherwise one row `(newId, userId1, userId2)`, in the
   caller's order, is inserted and returned; a failed or empty insert yields
   no chat.
   */
  function FindOrCreateChat(chats: seq<Chat>, userId1: string, userId2: string,
                            lookupFails: bool, insert: InsertOutcome, newId: string): (r: Resolution)
    ensures lookupFails ==> r == Resolution(None, chats)
    ensures !lookupFails && FirstChatIndex(chats, userId1, userId2) < |chats| ==>
      r == Resolution(Some(chats[FirstChatIndex(chats, userId1, userId2)]), chats)
    ensures !lookupFails && FirstChatIndex(chats, userId1, userId2) == |chats| ==>
      && (insert == Rejected ==> r == Resolution(None, chats))
      && (insert == Inserted ==> r == Resolution(Some(Chat(newId, userId1, userId2)), chats + [Chat(newId, userId1, userId2)]))
      && (insert == NotReturned ==> r == Resolution(None, chats + [Chat(newId, userId1, userId2)]))
  {
    if lookupFails then Resolution(None, chats)
    else
      var found := MatchingChats(chats, userId1, userId2);
      FilterHead(chats, c => Joins(c, userId1, userId2));
      if |found| > 0 then Resolution(Some(found[0]), chats)
      else
        var w := InsertRow(chats, Chat(newId, userId1, userId2), insert);
        Resolution(w.returned, w.table)
  }

  /** Each call adds at most one row, at the end, and any chat it returns joins the pair. */
  lemma ResolutionShape(chats: seq<Chat>, userId1: string, userId2: string,
                        lookupFails: bool, insert: InsertOutcome, newId: string)
    ensures var r := FindOrCreateChat(chats, userId1, userId2, lookupFails, insert, newId);
      && |chats| <= |r.chats| <= |chats| + 1
      && r.chats[..|chats|] == chats
      && (r.chat.Some? ==> Joins(r.chat.value, userId1, userId2) && r.chat.value in r.chats)
  {
  }

  /** The lookup does not depend on the order the pair is given in. */
  lemma FirstChatIndexSymmetric(chats: seq<Chat>, a: string, b: string)
    ensures FirstChatIndex(chats, a, b) == FirstChatIndex(chats, b, a)
  {
  }

  /**
   Once a call has handed back a chat, any later successful lookup for the same
   pair, in either order, hands back that same chat and inserts nothing.
   */
  lemma ResolveIsIdempotent(chats: seq<Chat>, userId1: string, userId2: string,
                            lookupFails: bool, insert: InsertOutcome, newId: string,
                            swapped: bool, insert': InsertOutcome, newId': string)
    requires FindOrCreateChat(chats, userId1, userId2, lookupFails, insert, newId).chat.Some?
    ensures var r := FindOrCreateChat(chats, userId1, userId2, lookupFails, insert, newId);
      var (a, b) := if swapped then (userId2, userId1) else (userId1, userId2);
      FindOrCreateChat(r.chats, a, b, false, insert', newId') == Resolution(r.chat, r.chats)
  {
    var r := FindOrCreateChat(chats, userId1, userId2, lookupFails, insert, newId);
    FirstChatIndexSymmetric(chats, userId1, userId2);
    FirstChatIndexSymmetric(r.chats, userId1, userId2);
    if FirstChatIndex(chats, userId1, userId2) == |chats| {
      FirstIndexSnoc(chats, Chat(newId, userId1, userId2), c => Joins(c, userId1, userId2));
    }
  }

  /** No two stored chats join the same pair of users, whatever their order. */
  ghost predicate UniquePairs(chats: seq<Chat>)
  {
    forall i, j :: 0 <= i < j < |chats| ==> !Joins(chats[j], chats[i].user1, chats[i].user2)
  }

  /** Sequential resolutions never create a second chat for a pair. */
  lemma ResolvePreservesUniquePairs(chats: seq<Chat>, userId1: string, userId2: string,
                                    lookupFails: bool, insert: InsertOutcome, newId: string)
    requires UniquePairs(chats)
    ensures UniquePairs(FindOrCreateChat(chats, userId1, userId2, lookupFails, insert, newId).chats)
  {
  }
}

=== FILE: messages.dfy ===
/**
 The two message-table operations the screen calls: `fetchMessages` and
 `sendMessage`. The table is a sequence of rows in storage order; errors and
 the id the database assigns are parameters.
 */
module Messages {
  import opened Wrappers
  import opened Seqs
  import opened Storage

  /** A row of the messages table. No sender is written, so none is modelled. */
  datatype Message = Message(id: string, chatId: string, body: string)

  /**
   `fetchMessages`: the rows of chat `chatId`, in storage order (the query
   asks for no ordering); the empty list when the query fails.
   */
  function FetchMessages(messages: seq<Message>, chatId: string, fetchFails: bool): (r: seq<Message>)
    ensures fetchFails ==> r == []
    ensures !fetchFails ==> IsSubseq(r, messages)
    ensures !fetchFails ==>
      forall m :: multiset(r)[m] == if m.chatId == chatId then multiset(messages)[m] else 0
    ensures forall m :: m in r ==> m.chatId == chatId && m in messages
  {
    if fetchFails then [] else Filter(messages, (m: Message) => m.chatId == chatId)
  }

  /**
   `sendMessage`: inserts the row `(newId, chatId, body)` and hands it back.
   A failed insert writes nothing; an insert that returns no row writes the
   row but hands nothing back.
   */
  function SendMessage(messages: seq<Message>, chatId: string, body: string,
                       insert: InsertOutcome, newId: string): (w: Write<Message>)
    ensures insert == Inserted ==>
      w == Write(Some(Message(newId, chatId, body)), messages + [Message(newId, chatId, body)])
    ensures insert == Rejected ==> w == Write(None, messages)
    ensures insert == NotReturned ==> w == Write(None, messages + [Message(newId, chatId, body)])
  {
    InsertRow(messages, Message(newId, chatId, body), insert)
  }
}

=== FILE: screen.dfy ===
/**
 The state the messages screen keeps between events, and the event handlers
 that change it: selecting a user, sending a message, going back to the list,
 and the effect that opens a conversation with a pre-selected user on mount.
 Each handler is a pure transition from the screen state and the database
 tables to new ones; every answer of the database is an oracle parameter.
 */
module Screen {
  import opened Wrappers
  import opened Seqs
  import opened Storage
  import opened UserSearch
  import opened Chats
  import opened Messages

  /** The screen's own state: the open conversation partner, its chat id and its messages. */
  datatype Session = Session(selectedUser: Option<User>, currentChatId: Option<string>, messages: seq<Message>)

  /** The two database tables the screen reads and writes. */
  datatype Backend = Backend(chats: seq<Chat>, messages: seq<Message>)

  datatype State = State(session: Session, backend: Backend)

  /** The database's answers during one user selection. */
  datatype SelectOracle = SelectOracle(lookupFails: bool, chatInsert: InsertOutcome, newChatId: string, fetchFails: bool)

  /** The database's answer to one send. */
  datatype SendOracle = SendOracle(insert: InsertOutcome, newMessageId: string)

  /** The state on first render: the pre-selected user, if any, with no chat and no messages. */
  function InitialSession(initialSelectedUser: Option<User>): (s: Session)
    ensures s.selectedUser == initialSelectedUser
    ensures s.currentChatId.None? && |s.messages| == 0
  {
    Session(initialSelectedUser, None, [])
  }

  /** JavaScript truthiness of a nullable string: present and not empty. */
  predicate IsTruthy(id: Option<string>)
  {
    id.Some? && id.value != ""
  }

  /** Some stored chat with id `id` is between `a` and `b`. */
  ghost predicate ChatOfPair(chats: seq<Chat>, id: string, a: string, b: string)
  {
    exists i :: 0 <= i < |chats| && chats[i].id == id && Joins(chats[i], a, b)
  }

  /**
   `handleSelectUser`: resolves the chat between the viewer and `user`. When
   no chat comes back nothing on screen changes. Otherwise the screen switches
   to that chat, shows exactly its stored messages (none if the fetch fails),
   and selects `user`. Only the chats table can change, by at most one row.
   */
  function SelectUser(st: State, viewerId: string, user: User, o: SelectOracle): (r: State)
    ensures r.backend.messages == st.backend.messages
    ensures st.backend.chats <= r.backend.chats && |r.backend.chats| <= |st.backend.chats| + 1
    ensures r.backend.chats ==
      FindOrCreateChat(st.backend.chats, viewerId, user.id, o.lookupFails, o.chatInsert, o.newChatId).chats
    ensures o.lookupFails ==> r == st
    ensures FindOrCreateChat(st.backend.chats, viewerId, user.id, o.lookupFails, o.chatInsert, o.newChatId).chat.None? ==>
      r.session == st.session
    ensures FindOrCreateChat(st.backend.chats, viewerId, user.id, o.lookupFails, o.chatInsert, o.newChatId).chat.Some? ==>
      && r.session.selectedUser == Some(user)
      && r.session.currentChatId ==
           Some(FindOrCreateChat(st.backend.chats, viewerId, user.id, o.lookupFails, o.chatInsert, o.newChatId).chat.value.id)
      && ChatOfPair(r.backend.chats, r.session.currentChatId.value, viewerId, user.id)
      && (o.fetchFails ==> r.session.messages == [])
      && (!o.fetchFails ==>
            forall m :: multiset(r.session.messages)[m] ==
              if m.chatId == r.session.currentChatId.value then multiset(st.backend.messages)[m] else 0)
  {
    var res := FindOrCreateChat(st.backend.chats, viewerId, user.id, o.lookupFails, o.chatInsert, o.newChatId);
    ResolutionShape(st.backend.chats, viewerId, user.id, o.lookupFails, o.chatInsert, o.newChatId);
    var backend := st.backend.(chats := res.chats);
    match res.chat
    case None => State(st.session, backend)
    case Some(chat) =>
      var fetched := FetchMessages(st.backend.messages, chat.id, o.fetchFails);
      State(Session(Some(user), Some(chat.id), fetched), backend)
  }

  /**
   `handleSendMessage`: with no (or an empty) current chat id nothing
   happens. Otherwise the message is inserted into the current chat; when the
   insert hands the row back it is appended to the shown messages, and in
   every other case the shown messages stay as they were. The selected user
   and the chat id never change.
   */
  function SendMessageInView(st: State, body: string, o: SendOracle): (r: State)
    ensures !IsTruthy(st.session.currentChatId) ==> r == st
    ensures r.session.selectedUser == st.session.selectedUser
    ensures r.session.currentChatId == st.session.currentChatId
    ensures r.backend.chats == st.backend.chats
    ensures IsTruthy(st.session.currentChatId) && o.insert == Inserted ==>
      var m := Message(o.newMessageId, st.session.currentChatId.value, body);
      r.session.messages == st.session.messages + [m] && r.backend.messages == st.backend.messages + [m]
    ensures IsTruthy(st.session.currentChatId) && o.insert == NotReturned ==>
      r.backend.messages == st.backend.messages + [Message(o.newMessageId, st.session.currentChatId.value, body)]
    ensures o.insert != Inserted ==> r.session.messages == st.session.messages
    ensures o.insert == Rejected ==> r.backend == st.backend
    ensures |st.backend.messages| <= |r.backend.messages| <= |st.backend.messages| + 1
    ensures r.backend.messages[..|st.backend.messages|] == st.backend.messages
  {
    if IsTruthy(st.session.currentChatId) then
      var w := SendMessage(st.backend.messages, st.session.currentChatId.value, body, o.insert, o.newMessageId);
      var backend := st.backend.(messages := w.table);
      match w.returned
      case Some(m) => State(st.session.(messages := st.session.messages + [m]), backend)
      case None => State(st.session, backend)
    else st
  }

  /** `handleBackToList`: deselects the user and keeps the chat id and the messages. */
  function BackToList(s: Session): (r: Session)
    ensures r.selectedUser.None?
    ensures r.currentChatId == s.currentChatId && r.messages == s.messages
  {
    s.(selectedUser := None)
  }

  /**
   The mount effect as written: it runs in the first render's closure, where
   the viewer id is still the empty string, so a pre-selected user is resolved
   against the viewer `""`.
   */
  function OpenAsWritten(initialSelectedUser: Option<User>, backend: Backend, o: SelectOracle): (r: State)
    ensures initialSelectedUser.None? ==> r == State(InitialSession(None), backend)
    ensures r.session.selectedUser == initialSelectedUser
    ensures r.session.currentChatId.Some? ==>
      ChatOfPair(r.backend.chats, r.session.currentChatId.value, "", initialSelectedUser.value.id)
    ensures initialSelectedUser.Some? ==>
      var res := FindOrCreateChat(backend.chats, "", initialSelectedUser.value.id, o.lookupFails, o.chatInsert, o.newChatId);
      && r.backend.messages == backend.messages
      && r.backend.chats == res.chats
      && (res.chat.None? ==> r.session == InitialSession(initialSelectedUser))
      && (res.chat.Some? ==>
            && r.session.currentChatId == Some(res.chat.value.id)
            && (o.fetchFails ==> r.session.messages == [])
            && (!o.fetchFails ==>
                  forall m :: multiset(r.session.messages)[m] ==
                    if m.chatId == res.chat.value.id then multiset(backend.messages)[m] else 0))
  {
    Open(initialSelectedUser, backend, "", o)
  }

  /**
   The mount effect as intended: a pre-selected user is resolved against the
   signed-in viewer. A failed resolution leaves the user selected with no chat.
   */
  function Open(initialSelectedUser: Option<User>, backend: Backend, viewerId: string, o: SelectOracle): (r: State)
    ensures initialSelectedUser.None? ==> r == State(InitialSession(None), backend)
    ensures r.session.selectedUser == initialSelectedUser
    ensures r.session.currentChatId.None? ==> r.session == InitialSession(initialSelectedUser)
    ensures r.session.currentChatId.Some? ==>
      ChatOfPair(r.backend.chats, r.session.currentChatId.value, viewerId, initialSelectedUser.value.id)
    ensures initialSelectedUser.Some? ==>
      var res := FindOrCreateChat(backend.chats, viewerId, initialSelectedUser.value.id, o.lookupFails, o.chatInsert, o.newChatId);
      && r.backend.messages == backend.messages
      && r.backend.chats == res.chats
      && (res.chat.None? ==> r.session == InitialSession(initialSelectedUser))
      && (res.chat.Some? ==>
            && r.session.currentChatId == Some(res.chat.value.id)
            && (o.fetchFails ==> r.session.messages == [])
            && (!o.fetchFails ==>
                  forall m :: multiset(r.session.messages)[m] ==
                    if m.chatId == res.chat.value.id then multiset(backend.messages)[m] else 0))
  {
    var st := State(InitialSession(initialSelectedUser), backend);
    match initialSelectedUser
    case None => st
    case Some(u) => SelectUser(st, viewerId, u, o)
  }

  /**
   A later run of the same effect, when the parent passes a different user:
   the user is selected first (line 35), then the chat is resolved. When no
   chat comes back, the new user stays selected next to the previous chat id
   and messages.
   */
  function ChangeSelectedUser(st: State, viewerId: string, user: User, o: SelectOracle): (r: State)
    ensures r.session.selectedUser == Some(user)
    ensures r.backend == SelectUser(st, viewerId, user, o).backend
    ensures FindOrCreateChat(st.backend.chats, viewerId, user.id, o.lookupFails, o.chatInsert, o.newChatId).chat.None? ==>
      r.session.currentChatId == st.session.currentChatId && r.session.messages == st.session.messages
    ensures FindOrCreateChat(st.backend.chats, viewerId, user.id, o.lookupFails, o.chatInsert, o.newChatId).chat.Some? ==>
      r == SelectUser(st, viewerId, user, o)
  {
    SelectUser(State(st.session.(selectedUser := Some(user)), st.backend), viewerId, user, o)
  }

  /**
   When a later run of the effect fails to resolve a chat, the next message
   typed to the newly selected user is written to the previously open chat.
   */
  lemma ChangedUserSendsToPreviousChat(st: State, viewerId: string, user: User, o: SelectOracle,
                                       body: string, newMessageId: string)
    requires IsTruthy(st.session.currentChatId)
    requires o.lookupFails
    ensures var r := ChangeSelectedUser(st, viewerId, user, o);
      var sent := SendMessageInView(r, body, SendOracle(Inserted, newMessageId));
      && r.session.selectedUser == Some(user)
      && sent.backend.messages ==
           st.backend.messages + [Message(newMessageId, st.session.currentChatId.value, body)]
  {
  }

  /**
   On mount with pre-selected user `u1`, the effect as written creates the chat
   `("", "u1")`, which does not include the signed-in viewer `v1`; the intended
   effect creates `("v1", "u1")`.
   */
  lemma OpenAsWrittenMissesViewer()
    ensures var u := User("u1", "Ann", None);
      var o := SelectOracle(false, Inserted, "c1", false);
      var asWritten := OpenAsWritten(Some(u), Backend([], []), o);
      var intended := Open(Some(u), Backend([], []), "v1", o);
      && asWritten.backend.chats == [Chat("c1", "", "u1")]
      && !Joins(asWritten.backend.chats[0], "v1", "u1")
      && intended.backend.chats == [Chat("c1", "v1", "u1")]
      && intended.session.currentChatId == Some("c1")
  {
  }

  /** Every shown message belongs to the open chat, and there is none without one. */
  ghost predicate ViewConsistent(s: Session)
  {
    (s.currentChatId.None? ==> s.messages == [])
    && forall i :: 0 <= i < |s.messages| ==> s.currentChatId == Some(s.messages[i].chatId)
  }

  /** The shown messages are stored rows, in storage order. */
  ghost predicate ViewPersisted(st: State)
  {
    IsSubseq(st.session.messages, st.backend.messages)
  }

  ghost predicate Coherent(st: State)
  {
    ViewConsistent(st.session) && ViewPersisted(st)
  }

  /** The screen starts coherent, with or without a pre-selected user. */
  lemma InitialCoherent(initialSelectedUser: Option<User>, backend: Backend)
    ensures Coherent(State(InitialSession(initialSelectedUser), backend))
  {
  }

  /** Selecting a user keeps the screen coherent. */
  lemma SelectUserCoherent(st: State, viewerId: string, user: User, o: SelectOracle)
    requires Coherent(st)
    ensures Coherent(SelectUser(st, viewerId, user, o))
  {
  }

  /** Sending a message keeps the screen coherent, whatever the database answers. */
  lemma SendCoherent(st: State, body: string, o: SendOracle)
    requires Coherent(st)
    ensures Coherent(SendMessageInView(st, body, o))
  {
    var r := SendMessageInView(st, body, o);
    if IsTruthy(st.session.currentChatId) && o.insert != Rejected {
      var m := Message(o.newMessageId, st.session.currentChatId.value, body);
      if o.insert == Inserted {
        SubseqSnoc(st.session.messages, st.backend.messages, m);
      } else {
        SubseqExtend(st.session.messages, st.backend.messages, m);
      }
    }
  }

  /** Mounting the screen, on any backend, gives a coherent screen. */
  lemma OpenCoherent(initialSelectedUser: Option<User>, backend: Backend, viewerId: string, o: SelectOracle)
    ensures Coherent(Open(initialSelectedUser, backend, viewerId, o))
  {
    InitialCoherent(initialSelectedUser, backend);
    if initialSelectedUser.Some? {
      SelectUserCoherent(State(InitialSession(initialSelectedUser), backend), viewerId, initialSelectedUser.value, o);
    }
  }

  /** A later run of the mount effect keeps the screen coherent. */
  lemma ChangeSelectedUserCoherent(st: State, viewerId: string, user: User, o: SelectOracle)
    requires Coherent(st)
    ensures Coherent(ChangeSelectedUser(st, viewerId, user, o))
  {
  }

  /** Going back to the list keeps the screen coherent. */
  lemma BackToListCoherent(st: State)
    requires Coherent(st)
    ensures Coherent(State(BackToList(st.session), st.backend))
  {
  }

  /**
   Once a selection has opened a chat, selecting the same user again, or the
   other participant selecting the viewer from their own screen, opens that
   same chat and creates none, provided the lookup succeeds.
   */
  lemma ReselectOpensSameChat(st: State, viewerId: string, user: User, o: SelectOracle,
                              other: Session, swapped: bool, viewer: User, o': SelectOracle)
    requires FindOrCreateChat(st.backend.chats, viewerId, user.id, o.lookupFails, o.chatInsert, o.newChatId).chat.Some?
    requires viewer.id == viewerId
    requires !o'.lookupFails
    ensures var r := SelectUser(st, viewerId, user, o);
      var r' := if swapped then SelectUser(State(other, r.backend), user.id, viewer, o')
                else SelectUser(r, viewerId, user, o');
      r'.session.currentChatId == r.session.currentChatId && r'.backend == r.backend
  {
    var res := FindOrCreateChat(st.backend.chats, viewerId, user.id, o.lookupFails, o.chatInsert, o.newChatId);
    ResolveIsIdempotent(st.backend.chats, viewerId, user.id, o.lookupFails, o.chatInsert, o.newChatId,
                        swapped, o'.chatInsert, o'.newChatId);
  }
}

=== FILE: seqs.dfy ===
/**
 Order-preserving selection over sequences: the subsequence relation, a
 predicate filter (the model of `Array.prototype.filter` and of an unordered
 row query over a table), and the index of the first element satisfying a
 predicate (the model of taking `rows[0]` of such a query).
 */
module Seqs {

  /** `a` is obtained from `b` by deleting elements, keeping the order of the rest. */
  ghost predicate IsSubseq<T>(a: seq<T>, b: seq<T>)
    decreases |b|
  {
    |a| == 0 ||
    (|b| > 0 && ((a[0] == b[0] && IsSubseq(a[1..], b[1..])) || IsSubseq(a, b[1..])))
  }

  /**
   The elements of `s` that satisfy `p`, in their order in `s`. The result is
   a subsequence of `s` that keeps every occurrence of a satisfying element and
   no occurrence of any other, which determines it uniquely.
   */
  function Filter<T(!new)>(s: seq<T>, p: T -> bool): (r: seq<T>)
    ensures |r| <= |s|
    ensures IsSubseq(r, s)
    ensures forall x :: multiset(r)[x] == if p(x) then multiset(s)[x] else 0
    ensures forall x :: x in r <==> x in s && p(x)
    decreases |s|
  {
    if |s| == 0 then []
    else
      assert s == [s[0]] + s[1..];
      var rest := Filter(s[1..], p);
      if p(s[0]) then [s[0]] + rest else rest
  }

  /**
   The position of the first element of `s` satisfying `p`, or `|s|` when there
   is none.
   */
  function FirstIndex<T>(s: seq<T>, p: T -> bool): (i: nat)
    ensures i <= |s|
    ensures forall j :: 0 <= j < i ==> !p(s[j])
    ensures i < |s| ==> p(s[i])
    decreases |s|
  {
    if |s| == 0 then 0
    else if p(s[0]) then 0
    else 1 + FirstIndex(s[1..], p)
  }

  /** The head of a non-empty filter result is the first satisfying element of the input. */
  lemma {:induction false} FilterHead<T(!new)>(s: seq<T>, p: T -> bool)
    ensures Filter(s, p) != [] <==> FirstIndex(s, p) < |s|
    ensures Filter(s, p) != [] ==> Filter(s, p)[0] == s[FirstIndex(s, p)]
    decreases |s|
  {
    if |s| > 0 && !p(s[0]) {
      FilterHead(s[1..], p);
    }
  }

  /** Appending an element leaves an existing first match where it was. */
  lemma {:induction false} FirstIndexSnoc<T>(s: seq<T>, x: T, p: T -> bool)
    ensures FirstIndex(s + [x], p) ==
      if FirstIndex(s, p) < |s| then FirstIndex(s, p)
      else if p(x) then |s|
      else |s| + 1
    decreases |s|
  {
    if |s| > 0 {
      assert (s + [x])[1..] == s[1..] + [x];
      FirstIndexSnoc(s[1..], x, p);
    }
  }

  /** Appending the same element to both sides keeps the subsequence relation. */
  lemma {:induction false} SubseqSnoc<T>(a: seq<T>, b: seq<T>, x: T)
    requires IsSubseq(a, b)
    ensures IsSubseq(a + [x], b + [x])
    decreases |b|
  {
    if |b| == 0 {
      assert a + [x] == [x] && b + [x] == [x];
    } else if |a| == 0 {
      SubseqSnoc(a, b[1..], x);
      assert (b + [x])[1..] == b[1..] + [x];
    } else if a[0] == b[0] && IsSubseq(a[1..], b[1..]) {
      SubseqSnoc(a[1..], b[1..], x);
      assert (a + [x])[1..] == a[1..] + [x];
      assert (b + [x])[1..] == b[1..] + [x];
    } else {
      SubseqSnoc(a, b[1..], x);
      assert (b + [x])[1..] == b[1..] + [x];
    }
  }

  /** Appending an element to the larger side only keeps the subsequence relation. */
  lemma {:induction false} SubseqExtend<T>(a: seq<T>, b: seq<T>, x: T)
    requires IsSubseq(a, b)
    ensures IsSubseq(a, b + [x])
    decreases |b|
  {
    if |a| > 0 {
      assert (b + [x])[1..] == b[1..] + [x];
      if a[0] == b[0] && IsSubseq(a[1..], b[1..]) {
        SubseqExtend(a[1..], b[1..], x);
      } else {
        SubseqExtend(a, b[1..], x);
      }
    }
  }
}

=== FILE: storage.dfy ===
/**
 The one write the screen performs against its tables: inserting a single row
 and asking for it back. The database's answer is an oracle parameter.
 */
module Storage {
  import opened Wrappers

  /**
   How the database answered an insert: the row was written and returned;
   the insert failed and nothing was written; or the row was written but no
   row came back.
   */
  datatype InsertOutcome = Inserted | Rejected | NotReturned

  /** What an insert leaves behind: the row handed back, if any, and the table. */
  datatype Write<T> = Write(returned: Option<T>, table: seq<T>)

  /**
   Inserts `row` at the end of `table`. At most one row is added, the table is
   otherwise untouched, and the row handed back is the one inserted.
   */
  function InsertRow<T>(table: seq<T>, row: T, outcome: InsertOutcome): (w: Write<T>)
    ensures w.table == table || w.table == table + [row]
    ensures w.table == table <==> outcome == Rejected
    ensures w.returned.Some? <==> outcome == Inserted
    ensures w.returned.Some? ==> w.returned.value == row && w.table[|table|] == row
  {
    match outcome
    case Inserted => Write(Some(row), table + [row])
    case Rejected => Write(None, table)
    case NotReturned => Write(None, table + [row])
  }
}

=== FILE: text.dfy ===
/**
 The string operations the search filter uses: `String.prototype.trim`,
 `toLowerCase` (restricted to ASCII letters), `startsWith` and `includes`.
 */
module Text {

  /**
   The code points `trim` removes: the ECMAScript WhiteSpace set (tab,
   vertical tab, form feed, space, no-break space, byte order mark and the
   Unicode space separators) and the LineTerminator set (line feed, carriage
   return, line and paragraph separators).
   */
  predicate IsWhitespace(c: char)
  {
    c == '\t' || c == '\n' || c == '\U{B}' || c == '\U{C}' || c == '\r' || c == ' '
    || c == '\U{A0}' || c == '\U{1680}' || ('\U{2000}' <= c <= '\U{200A}')
    || c == '\U{2028}' || c == '\U{2029}' || c == '\U{202F}' || c == '\U{205F}'
    || c == '\U{3000}' || c == '\U{FEFF}'
  }

  predicate IsUpper(c: char)
  {
    'A' <= c <= 'Z'
  }

  /** ASCII case folding of one character. */
  function LowerChar(c: char): (d: char)
    ensures !IsUpper(d)
    ensures IsUpper(c) ==> d as int == c as int + 32
    ensures !IsUpper(c) ==> d == c
  {
    if IsUpper(c) then (c as int + 32) as char else c
  }

  /** `toLowerCase`, restricted to ASCII letters. */
  function ToLower(s: string): (r: string)
    ensures |r| == |s|
    ensures forall i :: 0 <= i < |s| ==> r[i] == LowerChar(s[i])
  {
    seq(|s|, i requires 0 <= i < |s| => LowerChar(s[i]))
  }

  /** Lower-casing never turns a character into or out of whitespace. */
  lemma LowerKeepsWhitespace(c: char)
    ensures IsWhitespace(LowerChar(c)) <==> IsWhitespace(c)
  {
  }

  /** Drops the leading whitespace of `s`. */
  function TrimStart(s: string): (r: string)
    ensures |r| <= |s| && r == s[|s| - |r|..]
    ensures forall i :: 0 <= i < |s| - |r| ==> IsWhitespace(s[i])
    ensures r != [] ==> !IsWhitespace(r[0])
    decreases |s|
  {
    if |s| > 0 && IsWhitespace(s[0]) then TrimStart(s[1..]) else s
  }

  /** Drops the trailing whitespace of `s`. */
  function TrimEnd(s: string): (r: string)
    ensures |r| <= |s| && r == s[..|r|]
    ensures forall i :: |r| <= i < |s| ==> IsWhitespace(s[i])
    ensures r != [] ==> !IsWhitespace(r[|r| - 1])
    decreases |s|
  {
    if |s| > 0 && IsWhitespace(s[|s| - 1]) then TrimEnd(s[..|s| - 1]) else s
  }

  /** The number of whitespace characters `trim` removes from the front of `s`. */
  function LeadingWhitespace(s: string): nat
  {
    |s| - |TrimStart(s)|
  }

  /**
   `trim`: the longest slice of `s` that neither starts nor ends with
   whitespace, everything outside it being whitespace.
   */
  function Trim(s: string): (r: string)
    ensures LeadingWhitespace(s) + |r| <= |s|
    ensures r == s[LeadingWhitespace(s)..LeadingWhitespace(s) + |r|]
    ensures forall i :: 0 <= i < LeadingWhitespace(s) ==> IsWhitespace(s[i])
    ensures forall i :: LeadingWhitespace(s) + |r| <= i < |s| ==> IsWhitespace(s[i])
    ensures r != [] ==>
      !IsWhitespace(s[LeadingWhitespace(s)]) && !IsWhitespace(s[LeadingWhitespace(s) + |r| - 1])
  {
    TrimEnd(TrimStart(s))
  }

  /** `trim` yields the empty string exactly for all-whitespace input. */
  lemma TrimEmptyIff(s: string)
    ensures Trim(s) == [] <==> forall i :: 0 <= i < |s| ==> IsWhitespace(s[i])
  {
  }

  /** Lower-casing and trimming commute, at the front. */
  lemma {:induction false} TrimStartLower(s: string)
    ensures TrimStart(ToLower(s)) == ToLower(TrimStart(s))
    decreases |s|
  {
    if |s| > 0 {
      LowerKeepsWhitespace(s[0]);
      assert ToLower(s)[1..] == ToLower(s[1..]);
      TrimStartLower(s[1..]);
    }
  }

  /** Lower-casing and trimming commute, at the back. */
  lemma {:induction false} TrimEndLower(s: string)
    ensures TrimEnd(ToLower(s)) == ToLower(TrimEnd(s))
    decreases |s|
  {
    if |s| > 0 {
      LowerKeepsWhitespace(s[|s| - 1]);
      assert ToLower(s)[..|s| - 1] == ToLower(s[..|s| - 1]);
      TrimEndLower(s[..|s| - 1]);
    }
  }

  /**
   `s.toLowerCase().trim()` and `s.trim().toLowerCase()` agree, so a query is
   empty after lower-casing and trimming exactly when it is empty after
   trimming alone.
   */
  lemma TrimLowerCommute(s: string)
    ensures Trim(ToLower(s)) == ToLower(Trim(s))
    ensures Trim(ToLower(s)) == [] <==> Trim(s) == []
  {
    TrimStartLower(s);
    TrimEndLower(TrimStart(s));
  }

  /** `startsWith`. */
  predicate StartsWith(s: string, prefix: string)
  {
    |prefix| <= |s| && s[..|prefix|] == prefix
  }

  /** `s.includes(sub)`: some suffix of `s` starts with `sub`. */
  predicate Contains(s: string, sub: string)
    decreases |s|
  {
    StartsWith(s, sub) || (|s| > 0 && Contains(s[1..], sub))
  }

  /** `sub` occurs in `s` at position `k`. */
  predicate OccursAt(s: string, sub: string, k: int)
  {
    0 <= k && k + |sub| <= |s| && s[k..k + |sub|] == sub
  }

  /** `includes` holds exactly when the needle occurs at some position. */
  lemma {:induction false} ContainsIffOccurs(s: string, sub: string)
    ensures Contains(s, sub) <==> exists k :: OccursAt(s, sub, k)
    decreases |s|
  {
    if StartsWith(s, sub) {
      assert OccursAt(s, sub, 0);
    } else if |s| > 0 {
      ContainsIffOccurs(s[1..], sub);
      if Contains(s[1..], sub) {
        var k :| OccursAt(s[1..], sub, k);
        assert s[k + 1..k + 1 + |sub|] == s[1..][k..k + |sub|];
        assert OccursAt(s, sub, k + 1);
      } else {
        forall k | OccursAt(s, sub, k)
          ensures false
        {
          if k > 0 {
            assert s[1..][k - 1..k - 1 + |sub|] == s[k..k + |sub|];
            assert OccursAt(s[1..], sub, k - 1);
          }
        }
      }
    } else {
      forall k | OccursAt(s, sub, k)
        ensures false
      {
      }
    }
  }

  /** If `s` includes `sub`, it includes `sub` without its first character. */
  lemma ContainsTail(s: string, sub: string)
    requires |sub| > 0
    requires Contains(s, sub)
    ensures Contains(s, sub[1..])
  {
  }
}

=== FILE: user_search.dfy ===
/**
 The directory search of the messages screen: the memoised `filteredUsers`
 list, recomputed from the loaded users and the search box text.
 */
module UserSearch {
  import opened Wrappers
  import opened Seqs
  import opened Text

  /** A directory entry; only the fields the search reads. */
  datatype User = User(id: string, name: string, username: Option<string>)

  /** The query with one leading `@` removed, if it has one. */
  function StripAt(q: string): (r: string)
    ensures StartsWith(q, "@") ==> ['@'] + r == q
    ensures !StartsWith(q, "@") ==> r == q
  {
    if StartsWith(q, "@") then q[1..] else q
  }

  /** The lower-cased display name includes `q`. */
  predicate NameMatch(u: User, q: string)
  {
    Contains(ToLower(u.name), q)
  }

  /** The user has a handle and its lower-cased form includes `q`. */
  predicate HandleMatch(u: User, q: string)
  {
    u.username.Some? && Contains(ToLower(u.username.value), q)
  }

  /**
   The filter's test for one user against the normalised query `q`: a name
   match, a handle match, or a handle match of the query without its `@`.
   */
  predicate QueryMatches(u: User, q: string)
  {
    NameMatch(u, q) || HandleMatch(u, q) || HandleMatch(u, StripAt(q))
  }

  /** The search box text lower-cased, then trimmed. */
  function NormalizeQuery(searchQuery: string): string
  {
    Trim(ToLower(searchQuery))
  }

  /**
   The `allUsers.filter(...)` step for a normalised query `q`: the users `q`
   matches, in their original order, each occurrence kept.
   */
  function MatchingUsers(allUsers: seq<User>, q: string): (r: seq<User>)
    ensures IsSubseq(r, allUsers)
    ensures forall u :: multiset(r)[u] == if QueryMatches(u, q) then multiset(allUsers)[u] else 0
    ensures forall u :: u in r <==> u in allUsers && QueryMatches(u, q)
  {
    Filter(allUsers, u => QueryMatches(u, q))
  }

  /**
   `filteredUsers`: all users, unchanged, when the trimmed search text is
   empty; otherwise the users matching the query, which is the trimmed text
   lower-cased and so never empty. (The source lower-cases before trimming;
   `TrimLowerCommute` shows the order does not matter.)
   */
  function FilteredUsers(allUsers: seq<User>, searchQuery: string): (r: seq<User>)
    ensures Trim(searchQuery) == [] ==> r == allUsers
    ensures Trim(searchQuery) != [] ==>
      ToLower(Trim(searchQuery)) != [] && r == MatchingUsers(allUsers, ToLower(Trim(searchQuery)))
  {
    TrimLowerCommute(searchQuery);
    if Trim(searchQuery) == [] then allUsers
    else MatchingUsers(allUsers, NormalizeQuery(searchQuery))
  }

  /**
   The plain-handle test is subsumed by the `@`-stripped one, so a user matches
   exactly when the name includes the query or the handle includes the query
   with its `@` removed. In particular a user without a handle is matched by
   name alone.
   */
  lemma MatchesCharacterisation(u: User, q: string)
    ensures QueryMatches(u, q) <==> NameMatch(u, q) || HandleMatch(u, StripAt(q))
    ensures u.username.None? ==> (QueryMatches(u, q) <==> NameMatch(u, q))
  {
    if HandleMatch(u, q) && StartsWith(q, "@") {
      ContainsTail(ToLower(u.username.value), q);
    }
  }

  /** The query `@` alone matches every user that has a handle. */
  lemma LoneAtMatchesEveryHandle(u: User)
    requires u.username.Some?
    ensures QueryMatches(u, "@")
  {
  }

  /** A user found by `@t` is also found by `t`. */
  lemma AtQueryNarrows(u: User, t: string)
    requires QueryMatches(u, ['@'] + t)
    ensures QueryMatches(u, t)
  {
    var q := ['@'] + t;
    assert StartsWith(q, "@") && StripAt(q) == t;
    assert q[1..] == t;
    if NameMatch(u, q) {
      ContainsTail(ToLower(u.name), q);
    } else if HandleMatch(u, q) {
      ContainsTail(ToLower(u.username.value), q);
    }
  }

  /**
   Typing `@` into the search box lists exactly the users that have a handle
   or whose name contains an `@`.
   */
  lemma LoneAtQueryListsHandles(allUsers: seq<User>)
    ensures forall u :: u in FilteredUsers(allUsers, "@") <==>
      u in allUsers && (u.username.Some? || Contains(ToLower(u.name), "@"))
  {
    assert !IsWhitespace('@');
    assert ToLower("@") == "@";
    assert TrimStart("@") == "@";
    assert TrimEnd("@") == "@";
    assert NormalizeQuery("@") == "@";
    forall u | u in allUsers
      ensures QueryMatches(u, "@") <==> u.username.Some? || Contains(ToLower(u.name), "@")
    {
      if u.username.Some? {
        LoneAtMatchesEveryHandle(u);
      }
    }
  }

  /** Searching `@bob` finds a user whose handle is `Bob`. */
  lemma AtBobFindsHandleBob(allUsers: seq<User>, u: User)
    requires u in allUsers
    requires u.username == Some("Bob")
    ensures u in FilteredUsers(allUsers, "@bob")
    ensures u in FilteredUsers(allUsers, "bob")
  {
    assert ToLower("Bob") == "bob";
    assert StartsWith("bob", "bob");
    assert !IsWhitespace('@') && !IsWhitespace('b');
    assert ToLower("@bob") == "@bob";
    assert TrimStart("@bob") == "@bob";
    assert TrimEnd("@bob") == "@bob";
    assert NormalizeQuery("@bob") == "@bob";
    assert StripAt("@bob") == "bob";
    assert ToLower("bob") == "bob";
    assert TrimStart("bob") == "bob";
    assert TrimEnd("bob") == "bob";
    assert NormalizeQuery("bob") == "bob";
  }
}

=== FILE: wrappers.dfy ===
/** Optional values: the model's stand-in for TypeScript's `null` / `undefined`. */
module Wrappers {

  datatype Option<+T> = None | Some(value: T)
}
